=== FILE: README.md ===
# Few-shot episodic sampling and an instrumented batch-norm layer, in Dafny

This project models two pieces of pure logic from a few-shot image-classification
data pipeline.

1. **Episodic sub-dataset construction and sampling** (`datasets/ImageNet_val_few_shot.py`).
   - `construct_subset` relabels the rows of an evaluation-split descriptor. Each row's label
     becomes the index of its raw label in `np.unique` of the label column.
   - `SetDataset` builds one pool of sample indices per dense class id. Its `__getitem__`
     returns the first batch of a shuffled pass over one pool, with at most `batch_size` samples.
   - `EpisodicBatchSampler` yields `n_episodes` selections. Each is `randperm(n_classes)[:n_way]`.
   - `SetDataManager` sets `batch_size = n_support + n_query` and wires the dataset and the
     sampler into one loader.
2. **`BatchNorm2d_plus.forward`** (`lab/layers/BNp.py`). The model covers when the batch counter
   advances, how the averaging factor is chosen, whether batch or running statistics are used,
   and which buffers each of the two `F.batch_norm` calls receives. It also covers the
   side-channel call that records the pre-affine normalisation.

Randomness is passed in explicitly: every `torch.randperm` and every shuffling sampler becomes a
permutation argument (`Seqs.IsPermutation`). Tensors are an opaque type parameter. The numeric
kernel of `F.batch_norm` is a function parameter `kernel` over the call's arguments. One
assumption about that foreign call is built in (`BatchNormPlus.Invoke`): a running buffer is
written only by a training-mode call that receives it, and then takes the kernel's new estimate.

Modules, one per file:

| file | module | models |
|---|---|---|
| `wrappers.dfy` | `Wrappers` | `Option` (Python `None`) and `Result` (raised exceptions) |
| `seqs.dfy` | `Seqs` | `np.where(a == v)[0]`, Python indexing and slicing, permutations |
| `sorted_unique.dfy` | `SortedUnique` | `np.unique` and label lookup in its result |
| `subsets.dfy` | `Subsets` | `construct_subset` |
| `set_datasets.dfy` | `SetDatasets` | `SetDataset`: pools, `__getitem__`, `__len__` |
| `episodic_sampler.dfy` | `EpisodicSampler` | `EpisodicBatchSampler` |
| `set_data_manager.dfy` | `SetDataManagers` | `SetDataManager` and the episodes its loader yields |
| `batch_norm_plus.dfy` | `BatchNormPlus` | `BatchNorm2d_plus.forward` |

Four behaviours of the code a reader might not expect:
- An `n_way` larger than the number of classes is not rejected. The slice `[:n_way]` returns
  all class ids.
- A pool smaller than the batch size yields a short batch, so an episode need not hold
  `n_support + n_query` samples for every class (`SetDataManagers.EpisodeIsRectangular`).
- The side-channel call always passes `training=False`, so it normalises with the running
  buffers, including in training mode. Re-applying the affine transform to `before_affine`
  reproduces `output` only in evaluation mode with buffers present
  (`BatchNormPlus.SideChannelStatistics`). Because that call is in evaluation mode, it raises
  whenever a running buffer is missing, so a layer built without running statistics raises on
  every input (see "Findings").
- The side-channel call reads the running buffers after the primary call has updated them.

## Model

| member | source | states |
|---|---|---|
| `Seqs.Where` | datasets/ImageNet_val_few_shot.py:62 | the result lists, in ascending order, exactly the positions holding the value |
| `Seqs.WhereInSorted` | datasets/ImageNet_val_few_shot.py:34 | in a strictly increasing class table a present label is found at exactly one position |
| `Seqs.PyIndex` | datasets/ImageNet_val_few_shot.py:70-71 | list indexing succeeds exactly for `-n <= i < n`; negative indices count from the end |
| `Seqs.PyPrefix` | datasets/ImageNet_val_few_shot.py:88 | `s[:k]` is a prefix of length `min(k, len)` for `k >= 0` and `max(0, len + k)` otherwise |
| `SortedUnique.Unique` | datasets/ImageNet_val_few_shot.py:31 | the class table is strictly increasing and holds exactly the distinct raw labels |
| `SortedUnique.SortedEqual` | datasets/ImageNet_val_few_shot.py:31 | two strictly increasing sequences with the same elements are equal, so the table is determined by the set of labels |
| `SortedUnique.UniqueIsCanonical` | datasets/ImageNet_val_few_shot.py:31 | any sorted duplicate-free listing of the labels equals the computed table |
| `SortedUnique.UniqueDependsOnlyOnValues` | datasets/ImageNet_val_few_shot.py:31 | columns with the same set of labels give the same table, whatever their order or repetition |
| `SortedUnique.UniqueIdempotent` | datasets/ImageNet_val_few_shot.py:31 | taking the unique values of the table again changes nothing |
| `SortedUnique.UniqueEmpty` | datasets/ImageNet_val_few_shot.py:31 | the table is empty exactly when the label column is |
| `SortedUnique.IndexOf` | datasets/ImageNet_val_few_shot.py:34 | the id of a label is the one position of the table that holds it |
| `SortedUnique.IndexOfMonotone` | datasets/ImageNet_val_few_shot.py:31-34 | ids compare exactly as their labels do, in both directions |
| `Subsets.ConstructSubset` | datasets/ImageNet_val_few_shot.py:27-44 | the class table is sorted, duplicate-free and holds exactly the descriptor's labels; for every row `i`, `classes[targets[i]]` is row `i`'s label and sample `i` pairs row `i`'s image with that id; lengths are kept |
| `Subsets.EveryClassOccurs` | datasets/ImageNet_val_few_shot.py:31-34 | every class id is the label of some sample |
| `Subsets.ClassCount` | datasets/ImageNet_val_few_shot.py:31-43 | the number of classes is the number of distinct raw labels, and it is zero only for an empty descriptor |
| `Subsets.RemapMonotone` | datasets/ImageNet_val_few_shot.py:31-34 | two rows' ids are ordered, and equal, exactly as their raw labels are |
| `Subsets.RemapIgnoresRowOrder` | datasets/ImageNet_val_few_shot.py:28-34 | permuting the rows keeps the class table and permutes the ids the same way |
| `SetDatasets.BuildPools` | datasets/ImageNet_val_few_shot.py:54-62 | one pool per class id; pool `c` is the ascending list of sample indices whose id is `c` |
| `SetDatasets.NewSetDataset` | datasets/ImageNet_val_few_shot.py:48-68 | fails exactly when the batch size is not positive and there is at least one class; otherwise the dataset is the relabelled subset with non-empty pools that partition it |
| `SetDatasets.Len` | datasets/ImageNet_val_few_shot.py:73-74 | `len(dataset)` is the number of classes |
| `SetDatasets.FirstBatch` | datasets/ImageNet_val_few_shot.py:56-71 | the first shuffled batch has `min(pool size, batch size)` distinct members of the pool, and is the whole pool when the pool is no larger than the batch |
| `SetDatasets.GetItem` | datasets/ImageNet_val_few_shot.py:70-71 | fails exactly for an index outside the list of class loaders; otherwise returns `min(pool size, batch size)` samples of the dataset, all of the requested class |
| `SetDatasets.GetItemDrawsFromPool` | datasets/ImageNet_val_few_shot.py:66-71 | a fetched batch is drawn from distinct indices of the class's pool and holds the whole pool when the batch size allows it |
| `SetDatasets.PoolsPartition` | datasets/ImageNet_val_few_shot.py:61-62 | every sample index lies in the pool of its own id and in no other pool |
| `SetDatasets.PoolIsWhere` | datasets/ImageNet_val_few_shot.py:62 | a sorted list holding exactly a class's indices is the `np.where` answer |
| `SetDatasets.PoolSizesSum` | datasets/ImageNet_val_few_shot.py:61-68 | pool sizes add up to the number of samples, so every sample is covered exactly once |
| `EpisodicSampler.Selections` | datasets/ImageNet_val_few_shot.py:83-88 | exactly `n_episodes` selections, as many as `__len__` (`EpisodicSampler.Len`) reports; each is a prefix of its permutation, of the slice length, with distinct ids below `n_classes` |
| `EpisodicSampler.SelectionSize` | datasets/ImageNet_val_few_shot.py:88 | with `0 <= n_way <= n_classes` a selection has `n_way` ids; with a larger `n_way` it is truncated and holds every class |
| `SetDataManagers.NewSetDataManager` | datasets/ImageNet_val_few_shot.py:139-144 | the per-class batch size is `n_support + n_query` |
| `SetDataManagers.GetDataLoader` | datasets/ImageNet_val_few_shot.py:150-159 | the dataset gets the manager's batch size, and the sampler gets `len(dataset)` classes, `n_way` and `n_episode`; failure is the dataset's: exactly a non-positive batch size with at least one row, reported as that batch size |
| `SetDataManagers.Episode` | datasets/ImageNet_val_few_shot.py:153-158 | slot `j` of an episode is the fetch of the `j`-th selected class, with `min(pool size, batch size)` samples of that class |
| `SetDataManagers.EpisodeIsRectangular` | datasets/ImageNet_val_few_shot.py:66-71 | every slot holds exactly `batch_size` samples if and only if every selected pool has at least that many members |
| `SetDataManagers.Run` | datasets/ImageNet_val_few_shot.py:153-158 | a pass yields the sampler's episodes in order, each the fetch of its selection with one slot per selected class; collation stops the pass with an error at the first episode whose slots differ in length, and the pass yields all `n_episodes` episodes exactly when none does |
| `SetDataManagers.SelectionsNamePools` | datasets/ImageNet_val_few_shot.py:153-154 | because the sampler counts `len(dataset)` classes, every selected id names an existing pool |
| `BatchNormPlus.Forward` | lab/layers/BNp.py:20-87 | rejects non-4-d input, and raises exactly when, besides, a running buffer is missing, because one of the two calls is then in evaluation mode without statistics; the counter advances by one exactly when training with tracking and a counter; the factor is the momentum, 0.0, or `1/n` in `(0, 1]` after the increment; batch statistics in training and in evaluation without buffers; buffers withheld exactly when training without tracking; statistics change only when training with tracking, and then each present buffer takes the primary call's new estimate; the side call has no affine, evaluation mode, momentum 1, the layer's `eps`, the input copy and the post-update buffers, and writes nothing; the stored input, output and `before_affine` are this call's |
| `BatchNormPlus.ForwardIntended` | lab/layers/BNp.py:20-83 | with the side call replaying the primary call's choice of statistics: raises only for non-4-d input or an evaluation-mode layer holding exactly one buffer, so a layer without buffers works; counter, factor, choice of statistics, buffers passed and updated, primary call, output and configuration are as in the code as written (`BatchNormPlus.PrimaryStepOk`); the side call reads the input copy, uses batch statistics and no buffer exactly when the primary call uses batch statistics and otherwise the primary call's buffers, has no affine, momentum 1 and the layer's `eps`, writes nothing and is never refused, and `before_affine` is its output |
| `BatchNormPlus.RunAsWritten` | lab/layers/BNp.py:20-87 | a layer lacking a running buffer never gets past its first input when the code as written runs over a sequence of inputs |
| `BatchNormPlus.RunAsWrittenAgrees` | lab/layers/BNp.py:20-83 | for a layer holding both buffers, running the code as written and running the intended version end in the same state apart from `before_affine`, so the counting and statistics lemmas below hold of the code as written too |
| `BatchNormPlus.UntrackedLayerRaises` | lab/layers/BNp.py:73-83 | a layer without running buffers raises on every 4-d input in either mode as written, and succeeds with the intended side call |
| `BatchNormPlus.ForwardIntendedAgrees` | lab/layers/BNp.py:20-83 | wherever the code as written succeeds, the intended version gives the same output, primary call and layer state apart from `before_affine`, and in evaluation mode the very same step |
| `BatchNormPlus.CapturedStateIsOverwritten` | lab/layers/BNp.py:57-87 | the previous call's stored input, output and `before_affine` do not influence the next call |
| `BatchNormPlus.SideChannelStatistics` | lab/layers/BNp.py:73-86 | in evaluation mode with buffers the side call is the primary call without affine; in training mode the primary call uses batch statistics and the side call does not |
| `BatchNormPlus.RunCountsBatches` | lab/layers/BNp.py:31-38 | over steps with the intended side call, training with tracking counts every batch, and without momentum the next factor is one over the number of counted batches |
| `BatchNormPlus.RunKeepsStatistics` | lab/layers/BNp.py:31-65 | outside training with tracking, any number of steps with the intended side call, stopping at the first that raises, leaves the counter and running buffers unchanged |

## Left out

- Image loading and decoding (`ImageFolder`, PIL, truncated-image tolerance) and the base dataset object: only the descriptor's rows reach the model, and `deepcopy` of the base dataset is not modelled.
- Reading the descriptor CSV (`pd.read_csv`) and its missing-column errors: the descriptor is an in-memory sequence of rows.
- `os.path.join` with the configured root: a sample keeps the descriptor's relative path.
- `targets_id[i]` is a one-element numpy array in the code; the model uses its element, which is how the later `np.where` over those arrays behaves.
- Raw labels are integers in the model; `np.unique` sorts any ordered label type the same way.
- `TransformLoader`, the augmentation flag and the normalisation constants: floating point and foreign constructors.
- DataLoader workers, `num_workers`, `pin_memory` and prefetching: the model assembles each episode in selection order.
- Collating an episode into tensors: the model keeps one batch per selected class and only records whether the batches can be stacked (`SetDataManagers.Rectangular`).
- SetDataManagers.Run: an episode with no selected class (no classes, or `n_way` slicing to nothing) is yielded as empty, although collating an empty list raises in the program.
- The defaults of `SetDataManager.__init__` (`n_way=5`, `n_support=5`, `n_query=16`, `n_eposide=100`) and of `get_data_loader` (`num_workers=12`), and the `print("Using Split")` output: callers pass every value explicitly and console output is not modelled.
- The random number generator: permutations are parameters.
- `EpisodicSampler.Selections`: `n_episodes` is a natural number, so negative episode counts are not modelled.
- `BatchNormPlus.Forward`: the arithmetic of `F.batch_norm` (means, variances, `eps`, affine) is an uninterpreted kernel. Of its refusals only one is modelled (`BatchNormPlus.RejectsCall`): evaluation mode without a running buffer, decided from the call's arguments alone. Its other errors, such as the training-mode refusal of a batch with one value per channel and shape mismatches between the input and the buffers or affine parameters, are not modelled, because they depend on tensor shapes, which the model does not carry.
- `BatchNormPlus.Forward`: an input with no elements is treated like any other 4-d input, although `F.batch_norm` returns such an input before checking for running buffers, so a buffer-less layer may not raise on it.
- `BatchNormPlus.Forward`: the factor `1.0 / float(n)` is exact real division, and the 64-bit counter does not wrap.
- BatchNormPlus.Forward: when a call raises, the state it had already changed (the counter, the input copy, the output and, in training, the buffers) is not returned; the model reports only the error.
- The layer's constructor and `nn.BatchNorm2d` buffer registration: the layer state is given as a record.

## Findings

| source | as written | input that shows it | evidently intended | confidence | as-written member | corrected member |
|---|---|---|---|---|---|---|
| lab/layers/BNp.py:73-83 | the side-channel call always passes the layer's running buffers with `training=False`, and `F.batch_norm` refuses evaluation mode without running buffers | a layer built with `track_running_stats=False` (both buffers `None`), in training or evaluation mode, given any 4-d input | record the pre-affine normalisation with the same statistics the primary call used, without affine and without updating anything | medium, not executed | `BatchNormPlus.UntrackedLayerRaises` | `BatchNormPlus.ForwardIntended` |

=== FILE: batch_norm_plus.dfy ===
/** `BatchNorm2d_plus.forward`: a 2-d batch-normalisation layer that, besides
    its normal output, records a copy of its input and a second,
    affine-free normalisation of it. Tensors are an opaque type `T` and the
    numeric kernel of `F.batch_norm` is a parameter `kernel`: the model
    fixes which arguments each call receives and which buffers each call
    may write, not the arithmetic. */
module BatchNormPlus {
  import opened Wrappers

  /** The arguments of one `F.batch_norm` call, in positional order. */
  datatype BatchNormCall<T> = BatchNormCall(
    input: T,
    runningMean: Option<T>,
    runningVar: Option<T>,
    weight: Option<T>,
    bias: Option<T>,
    training: bool,
    momentum: real,
    eps: real)

  /** What the numeric kernel computes for a call: the normalised tensor and
      the running estimates it writes back when it updates them. */
  datatype KernelResult<T> = KernelResult(output: T, newMean: T, newVar: T)

  /** `F.batch_norm` normalises with the batch's own statistics when called
      in training mode, and with the running buffers it is given otherwise. */
  predicate UsesBatchStats<T>(c: BatchNormCall<T>) {
    c.training
  }

  /** `F.batch_norm` updates a running buffer in place only when called in
      training mode with that buffer passed. */
  predicate WritesMean<T>(c: BatchNormCall<T>) {
    c.training && c.runningMean.Some?
  }

  predicate WritesVar<T>(c: BatchNormCall<T>) {
    c.training && c.runningVar.Some?
  }

  /** The layer's state: mode flags, configuration, the counter and running
      buffers (absent when statistics are not tracked), the affine
      parameters (absent without affine), and the three fields each forward
      call overwrites. */
  datatype Layer<T> = Layer(
    training: bool,
    trackRunningStats: bool,
    momentum: Option<real>,
    eps: real,
    numBatchesTracked: Option<nat>,
    runningMean: Option<T>,
    runningVar: Option<T>,
    weight: Option<T>,
    bias: Option<T>,
    input: Option<T>,
    output: Option<T>,
    beforeAffine: Option<T>)

  /** `F.batch_norm` refuses a call in evaluation mode that lacks a running
      buffer: there are no statistics to normalise with. */
  predicate RejectsCall<T>(c: BatchNormCall<T>) {
    !c.training && (c.runningMean.None? || c.runningVar.None?)
  }

  /** Errors a forward call raises: `_check_input_dim` rejects anything but
      a 4-d input, and `F.batch_norm` rejects an evaluation-mode call
      without running buffers. */
  datatype ForwardError = InputNot4d(dim: nat) | MissingRunningStats

  /** One forward step: the new layer state, the returned tensor, and the
      arguments of the primary and of the side-channel call. */
  datatype Step<T> = Step(layer: Layer<T>, output: T, primary: BatchNormCall<T>, side: BatchNormCall<T>)

  /** Whether this step counts a batch. */
  predicate CountsBatch<T>(l: Layer<T>) {
    l.training && l.trackRunningStats && l.numBatchesTracked.Some?
  }

  /** `num_batches_tracked` after the step's increment. */
  function CounterAfter<T>(l: Layer<T>): Option<nat> {
    if CountsBatch(l) then Some(l.numBatchesTracked.value + 1) else l.numBatchesTracked
  }

  /** `exponential_average_factor`: the momentum when one is set, 0.0
      without one, replaced by the cumulative `1 / num_batches_tracked`
      when the step counts a batch and no momentum is set. */
  function AveragingFactor<T>(l: Layer<T>): real {
    var factor := if l.momentum.None? then 0.0 else l.momentum.value;
    if CountsBatch(l) then
      if l.momentum.None? then 1.0 / (CounterAfter(l).value as real) else l.momentum.value
    else factor
  }

  /** `bn_training`: batch statistics in training mode, and in evaluation
      mode only when there are no running buffers. */
  function BnTraining<T>(l: Layer<T>): bool {
    if l.training then true else l.runningMean.None? && l.runningVar.None?
  }

  /** The primary call: buffers are withheld when training without
      tracking, so that they cannot be updated. */
  function PrimaryCall<T>(l: Layer<T>, x: T): BatchNormCall<T> {
    var passBuffers := !l.training || l.trackRunningStats;
    BatchNormCall(
      x,
      if passBuffers then l.runningMean else None,
      if passBuffers then l.runningVar else None,
      l.weight, l.bias, BnTraining(l), AveragingFactor(l), l.eps)
  }

  /** The side-channel call on the stored input copy: no weight, no bias,
      evaluation mode, momentum 1. */
  function SideCall<T>(l: Layer<T>, x: T): BatchNormCall<T> {
    BatchNormCall(x, l.runningMean, l.runningVar, None, None, false, 1.0, l.eps)
  }

  /** Runs `F.batch_norm` on the layer's buffers. This is the modelling
      assumption about the foreign call: it returns the kernel's output,
      and a running buffer takes the kernel's new estimate only when the
      call is in training mode and receives that buffer. */
  function Invoke<T>(l: Layer<T>, c: BatchNormCall<T>, kernel: BatchNormCall<T> -> KernelResult<T>): (Layer<T>, T)
  {
    var k := kernel(c);
    (l.(runningMean := if WritesMean(c) then Some(k.newMean) else l.runningMean,
        runningVar := if WritesVar(c) then Some(k.newVar) else l.runningVar),
     k.output)
  }

  /** Lines up to the primary call: count the batch, keep a copy of the
      input, run the primary call and store its output. */
  function PrimaryStage<T>(l: Layer<T>, x: T, kernel: BatchNormCall<T> -> KernelResult<T>): (Layer<T>, T) {
    var (afterPrimary, output) :=
      Invoke(l.(numBatchesTracked := CounterAfter(l), input := Some(x)), PrimaryCall(l, x), kernel);
    (afterPrimary.(output := Some(output)), output)
  }

  /** What `forward` does up to and including the primary call, stated of a
      step `s` that succeeded; both the code as written and the intended
      version below satisfy it. */
  ghost predicate PrimaryStepOk<T>(l: Layer<T>, x: T, kernel: BatchNormCall<T> -> KernelResult<T>, s: Step<T>) {
    // the counter advances by exactly one when a batch is counted
    && (CountsBatch(l) ==> s.layer.numBatchesTracked == Some(l.numBatchesTracked.value + 1))
    && (!CountsBatch(l) ==> s.layer.numBatchesTracked == l.numBatchesTracked)
    // averaging factor: momentum when set, 0.0 or the cumulative 1/n otherwise
    && (l.momentum.Some? ==> s.primary.momentum == l.momentum.value)
    && (l.momentum.None? && !CountsBatch(l) ==> s.primary.momentum == 0.0)
    && (l.momentum.None? && CountsBatch(l) ==>
          && 0.0 < s.primary.momentum <= 1.0
          && s.primary.momentum * (s.layer.numBatchesTracked.value as real) == 1.0)
    // batch statistics in training mode, and in evaluation mode only without
    // buffers
    && (UsesBatchStats(s.primary) <==> l.training || (l.runningMean.None? && l.runningVar.None?))
    // buffers are withheld exactly when training without tracking
    && (l.training && !l.trackRunningStats ==>
          s.primary.runningMean.None? && s.primary.runningVar.None?)
    && (!(l.training && !l.trackRunningStats) ==>
          s.primary.runningMean == l.runningMean && s.primary.runningVar == l.runningVar)
    // the running statistics change only when training with tracking, and
    // then each present buffer takes the primary call's new estimate
    && (!(l.training && l.trackRunningStats) ==>
          s.layer.runningMean == l.runningMean && s.layer.runningVar == l.runningVar)
    && (l.training && l.trackRunningStats ==>
          && s.layer.runningMean == (if l.runningMean.Some? then Some(kernel(s.primary).newMean) else None)
          && s.layer.runningVar == (if l.runningVar.Some? then Some(kernel(s.primary).newVar) else None))
    // the primary call normalises the input with the layer's affine parameters
    && s.primary.input == x
    && s.primary.weight == l.weight && s.primary.bias == l.bias
    && s.primary.eps == l.eps
    // the returned value and the captured input and output are this call's
    && s.output == kernel(s.primary).output
    && s.layer.input == Some(x)
    && s.layer.output == Some(s.output)
    // configuration is left alone
    && s.layer.training == l.training
    && s.layer.trackRunningStats == l.trackRunningStats
    && s.layer.momentum == l.momentum
    && s.layer.eps == l.eps
    && s.layer.weight == l.weight && s.layer.bias == l.bias
  }

  /** `forward(input)` with `input.dim() == dim`, as written. */
  function Forward<T>(l: Layer<T>, x: T, dim: nat, kernel: BatchNormCall<T> -> KernelResult<T>): (r: Result<Step<T>, ForwardError>)
    // only 4-d inputs are accepted, and a layer without both running
    // buffers always raises, at the latest in the evaluation-mode side call
    ensures r.Failure? <==> dim != 4 || l.runningMean.None? || l.runningVar.None?
    ensures r.Failure? ==> r.error == (if dim != 4 then InputNot4d(dim) else MissingRunningStats)
    // counter, averaging factor, statistics, buffers, primary call, output
    // and configuration
    ensures r.Success? ==> PrimaryStepOk(l, x, kernel, r.value)
    // the side-channel call: same input copy, no affine, evaluation mode,
    // reading the buffers as the primary call left them, writing nothing
    ensures r.Success? ==>
      && r.value.side.input == x
      && r.value.side.weight.None? && r.value.side.bias.None?
      && !UsesBatchStats(r.value.side)
      && !WritesMean(r.value.side) && !WritesVar(r.value.side)
      && r.value.side.runningMean == r.value.layer.runningMean
      && r.value.side.runningVar == r.value.layer.runningVar
      && r.value.side.momentum == 1.0
      && r.value.side.eps == l.eps
    // the pre-affine normalisation is the side call's output
    ensures r.Success? ==> r.value.layer.beforeAffine == Some(kernel(r.value.side).output)
  {
    if dim != 4 then Failure(InputNot4d(dim))
    else if RejectsCall(PrimaryCall(l, x)) then Failure(MissingRunningStats)
    else
      var (withOutput, output) := PrimaryStage(l, x, kernel);
      var side := SideCall(withOutput, x);
      if RejectsCall(side) then Failure(MissingRunningStats)
      else
        var (afterSide, beforeAffine) := Invoke(withOutput, side, kernel);
        Success(Step(afterSide.(beforeAffine := Some(beforeAffine)), output, PrimaryCall(l, x), side))
  }

  /** The side-channel call as evidently intended: the same choice of
      statistics as the primary call, with affine removed and nothing
      written. With batch statistics no buffer is passed, so nothing can
      be updated; with running statistics the buffers are passed in
      evaluation mode. */
  function IntendedSideCall<T>(l: Layer<T>, x: T, bnTraining: bool): BatchNormCall<T> {
    if bnTraining then BatchNormCall(x, None, None, None, None, true, 1.0, l.eps)
    else BatchNormCall(x, l.runningMean, l.runningVar, None, None, false, 1.0, l.eps)
  }

  /** `forward` with the intended side-channel call. */
  function ForwardIntended<T>(l: Layer<T>, x: T, dim: nat, kernel: BatchNormCall<T> -> KernelResult<T>): (r: Result<Step<T>, ForwardError>)
    // only a non-4-d input, or an evaluation-mode layer holding exactly one
    // of the two buffers, is refused; a layer without buffers works
    ensures r.Failure? <==> dim != 4 || (!l.training && (l.runningMean.None? != l.runningVar.None?))
    ensures dim == 4 && l.runningMean.None? && l.runningVar.None? ==> r.Success?
    // counter, averaging factor, statistics, buffers, primary call, output
    // and configuration exactly as in the code as written
    ensures r.Success? ==> PrimaryStepOk(l, x, kernel, r.value)
    // the side call replays the primary call's choice of statistics on the
    // input copy, without affine, writing nothing and never refused: with
    // batch statistics it passes no buffer, otherwise the primary call's
    ensures r.Success? ==>
      && r.value.side.input == x
      && (UsesBatchStats(r.value.side) <==> UsesBatchStats(r.value.primary))
      && r.value.side.weight.None? && r.value.side.bias.None?
      && !WritesMean(r.value.side) && !WritesVar(r.value.side)
      && !RejectsCall(r.value.side)
      && (UsesBatchStats(r.value.side) ==> r.value.side.runningMean.None? && r.value.side.runningVar.None?)
      && (!UsesBatchStats(r.value.side) ==>
            r.value.side.runningMean == r.value.primary.runningMean
            && r.value.side.runningVar == r.value.primary.runningVar)
      && r.value.side.momentum == 1.0
      && r.value.side.eps == l.eps
    // the pre-affine normalisation is the side call's output
    ensures r.Success? ==> r.value.layer.beforeAffine == Some(kernel(r.value.side).output)
  {
    if dim != 4 then Failure(InputNot4d(dim))
    else if RejectsCall(PrimaryCall(l, x)) then Failure(MissingRunningStats)
    else
      var (withOutput, output) := PrimaryStage(l, x, kernel);
      var side := IntendedSideCall(withOutput, x, BnTraining(l));
      var (afterSide, beforeAffine) := Invoke(withOutput, side, kernel);
      Success(Step(afterSide.(beforeAffine := Some(beforeAffine)), output, PrimaryCall(l, x), side))
  }

  /** A layer without running buffers, which is what
      `track_running_stats=False` builds, raises on every 4-d input in
      either mode as written, and works with the intended side call. */
  lemma UntrackedLayerRaises<T>(l: Layer<T>, x: T, kernel: BatchNormCall<T> -> KernelResult<T>)
    requires l.runningMean.None? && l.runningVar.None?
    ensures Forward(l, x, 4, kernel) == Failure(MissingRunningStats)
    ensures ForwardIntended(l, x, 4, kernel).Success?
  {
  }

  /** Wherever the code as written succeeds, the intended version does the
      same step: same output, same primary call, same layer state apart
      from `before_affine`, and in evaluation mode exactly the same step. */
  lemma ForwardIntendedAgrees<T>(l: Layer<T>, x: T, dim: nat, kernel: BatchNormCall<T> -> KernelResult<T>)
    requires Forward(l, x, dim, kernel).Success?
    ensures ForwardIntended(l, x, dim, kernel).Success?
    ensures var a := Forward(l, x, dim, kernel).value;
      var b := ForwardIntended(l, x, dim, kernel).value;
      && b.output == a.output && b.primary == a.primary
      && b.layer.(beforeAffine := None) == a.layer.(beforeAffine := None)
      && (!l.training ==> b == a)
  {
  }

  /** The fields a forward call overwrites are never read: two layers that
      differ only in them step to the same state and output. */
  lemma CapturedStateIsOverwritten<T>(l1: Layer<T>, l2: Layer<T>, x: T, dim: nat, kernel: BatchNormCall<T> -> KernelResult<T>)
    requires l1.(input := None, output := None, beforeAffine := None) ==
             l2.(input := None, output := None, beforeAffine := None)
    ensures Forward(l1, x, dim, kernel) == Forward(l2, x, dim, kernel)
  {
  }

  /** In evaluation mode with running buffers the side-channel call is the
      primary call with the affine parameters removed (its momentum
      argument is unused without training), so there it is the
      pre-affine form of the output. In training mode it is not: the
      primary call uses the batch's statistics, the side call the running
      buffers. */
  lemma SideChannelStatistics<T>(l: Layer<T>, x: T, kernel: BatchNormCall<T> -> KernelResult<T>)
    ensures var r := Forward(l, x, 4, kernel);
      r.Success? ==> var s := r.value;
      && (!l.training && l.runningMean.Some? && l.runningVar.Some? ==>
            s.side == s.primary.(weight := None, bias := None, momentum := 1.0))
      && (l.training ==> UsesBatchStats(s.primary) && !UsesBatchStats(s.side))
  {
  }

  /** Forward steps over a sequence of 4-d inputs, with the intended side
      call, stopping at the first step that raises. */
  function Run<T>(l: Layer<T>, xs: seq<T>, kernel: BatchNormCall<T> -> KernelResult<T>): Layer<T>
    decreases |xs|
  {
    if |xs| == 0 then l
    else match ForwardIntended(l, xs[0], 4, kernel)
      case Failure(_) => l
      case Success(s) => Run(s.layer, xs[1..], kernel)
  }

  /** Training with tracking counts every batch, so with no momentum the
      step after `xs` averages with factor `1/n`, `n` being the number of
      batches counted including it: a cumulative moving average. */
  /** Forward steps of the code as written over a sequence of 4-d inputs,
      stopping at the first step that raises: a layer lacking a running
      buffer never gets past its first input. */
  function RunAsWritten<T>(l: Layer<T>, xs: seq<T>, kernel: BatchNormCall<T> -> KernelResult<T>): (r: Layer<T>)
    ensures l.runningMean.None? || l.runningVar.None? ==> r == l
    decreases |xs|
  {
    if |xs| == 0 then l
    else match Forward(l, xs[0], 4, kernel)
      case Failure(_) => l
      case Success(s) => RunAsWritten(s.layer, xs[1..], kernel)
  }

  /** For layers holding both running buffers, a run of the code as written
      and a run of the intended version, started from layers differing at
      most in `before_affine`, end in the same state apart from
      `before_affine`; so `RunCountsBatches` and `RunKeepsStatistics` hold
      of the code as written too. */
  lemma {:induction false} RunAsWrittenAgrees<T>(l1: Layer<T>, l2: Layer<T>, xs: seq<T>, kernel: BatchNormCall<T> -> KernelResult<T>)
    requires l1.runningMean.Some? && l1.runningVar.Some?
    requires l1.(beforeAffine := None) == l2.(beforeAffine := None)
    ensures RunAsWritten(l1, xs, kernel).(beforeAffine := None) == Run(l2, xs, kernel).(beforeAffine := None)
    decreases |xs|
  {
    if |xs| > 0 {
      var a := Forward(l1, xs[0], 4, kernel);
      var b := ForwardIntended(l2, xs[0], 4, kernel);
      assert a.Success? && b.Success?;
      assert a.value.layer.(beforeAffine := None) == b.value.layer.(beforeAffine := None);
      RunAsWrittenAgrees(a.value.layer, b.value.layer, xs[1..], kernel);
    }
  }

  lemma {:induction false} RunCountsBatches<T>(l: Layer<T>, xs: seq<T>, kernel: BatchNormCall<T> -> KernelResult<T>)
    requires CountsBatch(l)
    ensures CountsBatch(Run(l, xs, kernel))
    ensures Run(l, xs, kernel).numBatchesTracked == Some(l.numBatchesTracked.value + |xs|)
    ensures l.momentum.None? ==>
      AveragingFactor(Run(l, xs, kernel)) * ((l.numBatchesTracked.value + |xs| + 1) as real) == 1.0
    decreases |xs|
  {
    if |xs| > 0 {
      RunCountsBatches(ForwardIntended(l, xs[0], 4, kernel).value.layer, xs[1..], kernel);
    }
  }

  /** Outside training with tracking, no number of forward steps changes the
      running statistics or the counter. */
  lemma {:induction false} RunKeepsStatistics<T>(l: Layer<T>, xs: seq<T>, kernel: BatchNormCall<T> -> KernelResult<T>)
    requires !(l.training && l.trackRunningStats)
    ensures Run(l, xs, kernel).runningMean == l.runningMean
    ensures Run(l, xs, kernel).runningVar == l.runningVar
    ensures Run(l, xs, kernel).numBatchesTracked == l.numBatchesTracked
    decreases |xs|
  {
    if |xs| > 0 {
      if ForwardIntended(l, xs[0], 4, kernel).Success? {
        RunKeepsStatistics(ForwardIntended(l, xs[0], 4, kernel).value.layer, xs[1..], kernel);
      }
    }
  }
}

=== FILE: episodic_sampler.dfy ===
/** `EpisodicBatchSampler`: for each episode, a fresh random permutation of
    the class ids cut down to `n_way` entries. The permutations are passed
    in explicitly in place of `torch.randperm`. */
module EpisodicSampler {
  import opened Seqs

  /** The sampler's configuration; `nWay` is used as a Python slice bound,
      so it is not checked against `nClasses`. */
  datatype EpisodicBatchSampler = EpisodicBatchSampler(nClasses: nat, nWay: int, nEpisodes: nat)

  /** `len(sampler)`: the number of episodes. */
  function Len(s: EpisodicBatchSampler): nat {
    s.nEpisodes
  }

  /** Valid randomness for one pass: one permutation of the class ids per
      episode. */
  predicate ArePermutations(s: EpisodicBatchSampler, perms: seq<seq<nat>>) {
    && |perms| == s.nEpisodes
    && forall e :: 0 <= e < |perms| ==> IsPermutation(perms[e], s.nClasses)
  }

  /** One pass of `__iter__`: selection `e` is `perms[e][:n_way]`. */
  function Selections(s: EpisodicBatchSampler, perms: seq<seq<nat>>): (sels: seq<seq<nat>>)
    requires ArePermutations(s, perms)
    ensures |sels| == Len(s)
    ensures forall e :: 0 <= e < |sels| ==>
      && |sels[e]| == SliceLength(s.nClasses, s.nWay)
      && sels[e] == perms[e][..|sels[e]|]
      && Distinct(sels[e])
      && (forall j :: 0 <= j < |sels[e]| ==> sels[e][j] < s.nClasses)
  {
    seq(|perms|, e requires 0 <= e < |perms| => PyPrefix(perms[e], s.nWay))
  }

  /** With `0 <= n_way <= n_classes` every selection holds exactly `n_way`
      distinct classes; a larger `n_way` is truncated, and then every
      selection holds every class. */
  lemma SelectionSize(s: EpisodicBatchSampler, perms: seq<seq<nat>>, e: nat)
    requires ArePermutations(s, perms) && e < s.nEpisodes
    ensures 0 <= s.nWay <= s.nClasses ==> |Selections(s, perms)[e]| == s.nWay
    ensures s.nWay >= s.nClasses ==>
      |Selections(s, perms)[e]| == s.nClasses &&
      forall c :: 0 <= c < s.nClasses ==> c in Selections(s, perms)[e]
  {
    var sel := Selections(s, perms)[e];
    if s.nWay >= s.nClasses {
      assert sel == perms[e];
    }
  }
}

=== FILE: seqs.dfy ===
/** Sequence vocabulary used throughout the model, including the few pieces
    of Python and numpy indexing semantics the pipeline relies on. */
module Seqs {
  import opened Wrappers

  function Min(a: int, b: int): int { if a <= b then a else b }

  function Max(a: int, b: int): int { if a <= b then b else a }

  /** Sorted ascending with no value repeated. */
  predicate StrictlyIncreasing(s: seq<int>) {
    forall i, j :: 0 <= i < j < |s| ==> s[i] < s[j]
  }

  /** No value occurs twice. */
  predicate Distinct<T(==)>(s: seq<T>) {
    forall i, j :: 0 <= i < j < |s| ==> s[i] != s[j]
  }

  /** `p` lists every id below `n` exactly once: what `torch.randperm(n)`
      and a shuffling sampler over `n` items produce. */
  predicate IsPermutation(p: seq<nat>, n: nat) {
    && |p| == n
    && (forall i :: 0 <= i < |p| ==> p[i] < n)
    && Distinct(p)
    && (forall k :: 0 <= k < n ==> k in p)
  }

  /** The ascending positions at which `v` occurs in `s`; numpy's
      `np.where(s == v)[0]`. */
  function Where<T(==)>(s: seq<T>, v: T): (r: seq<nat>)
    ensures StrictlyIncreasing(r)
    ensures forall k :: 0 <= k < |r| ==> r[k] < |s| && s[r[k]] == v
    ensures forall k :: 0 <= k < |s| && s[k] == v ==> k in r
  {
    if |s| == 0 then []
    else
      var rest := Where(s[..|s| - 1], v);
      if s[|s| - 1] == v then rest + [|s| - 1] else rest
  }

  /** The number of occurrences of `v` in `s`. */
  function Count<T(==)>(s: seq<T>, v: T): nat {
    if |s| == 0 then 0 else Count(s[..|s| - 1], v) + (if s[|s| - 1] == v then 1 else 0)
  }

  /** `np.where` lists each occurrence once. */
  lemma {:induction false} WhereCount<T>(s: seq<T>, v: T)
    ensures |Where(s, v)| == Count(s, v)
  {
    if |s| > 0 {
      WhereCount(s[..|s| - 1], v);
    }
  }

  /** A value occurring in a strictly increasing sequence occurs at exactly
      one position, so `np.where` on a sorted table returns one index. */
  lemma WhereInSorted(u: seq<int>, t: int)
    requires StrictlyIncreasing(u) && t in u
    ensures |Where(u, t)| == 1
  {
    var r := Where(u, t);
    var k :| 0 <= k < |u| && u[k] == t;
    assert k in r;
    assert forall j :: 0 <= j < |r| ==> r[j] == k;
    assert r[0] == r[|r| - 1];
  }

  /** Python's `xs[i]` on a list of length `n`: negative indices count from
      the end, anything else outside the list raises IndexError (None). */
  function PyIndex(n: nat, i: int): (r: Option<nat>)
    ensures r.Some? <==> -(n as int) <= i < n
    ensures r.Some? ==> r.value < n && (r.value == i || r.value == n + i)
  {
    if 0 <= i < n then Some(i)
    else if -(n as int) <= i < 0 then Some(n + i)
    else None
  }

  /** Length of Python's `xs[:k]` for a list of length `n`. */
  function SliceLength(n: nat, k: int): nat {
    if 0 <= k then Min(k, n) else Max(0, n + k)
  }

  /** Python's `xs[:k]`: the first `k` elements, all of them when `k`
      exceeds the length, and all but the last `-k` when `k` is negative. */
  function PyPrefix<T>(s: seq<T>, k: int): (r: seq<T>)
    ensures |r| <= |s| && r == s[..|r|]
    ensures 0 <= k ==> |r| == Min(k, |s|)
    ensures k < 0 ==> |r| == Max(0, |s| + k)
  {
    s[..SliceLength(|s|, k)]
  }
}

=== FILE: set_data_manager.dfy ===
/** `SetDataManager`: wires the per-class batch size, the dataset and the
    episodic sampler into one loader, and the loader's assembly of an
    episode from the classes the sampler selects. */
module SetDataManagers {
  import opened Wrappers
  import opened Seqs
  import opened Subsets
  import opened SetDatasets
  import opened EpisodicSampler

  /** The manager's configuration; `batchSize` is `n_support + n_query`
      samples per class per episode. */
  datatype SetDataManager = SetDataManager(imageSize: int, nWay: int, batchSize: int, nEpisode: nat)

  /** The episodic loader: the dataset indexed by class id and the sampler
      choosing the class ids of each episode. */
  datatype EpisodeLoader = EpisodeLoader(dataset: SetDataset, sampler: EpisodicBatchSampler)

  function NewSetDataManager(imageSize: int, nWay: int, nSupport: int, nQuery: int, nEpisode: nat): (m: SetDataManager)
    ensures m.batchSize == nSupport + nQuery
    ensures m.nWay == nWay && m.nEpisode == nEpisode
  {
    SetDataManager(imageSize, nWay, nSupport + nQuery, nEpisode)
  }

  /** `get_data_loader`: builds the dataset with the manager's batch size and
      a sampler over as many classes as the dataset has pools. */
  method GetDataLoader(m: SetDataManager, rows: seq<Row>) returns (r: Result<EpisodeLoader, DatasetError>)
    ensures r.Failure? <==> m.batchSize <= 0 && |rows| > 0
    ensures r.Failure? ==> r.error == BatchSizeNotPositive(m.batchSize)
    ensures r.Success? ==>
      && Valid(r.value.dataset)
      && r.value.dataset.d == ConstructSubset(rows)
      && r.value.dataset.batchSize == m.batchSize
      && r.value.sampler.nClasses == SetDatasets.Len(r.value.dataset) == |ConstructSubset(rows).classes|
      && r.value.sampler.nWay == m.nWay
      && r.value.sampler.nEpisodes == m.nEpisode
  {
    var ds := NewSetDataset(m.batchSize, rows);
    match ds
    case Failure(err) =>
      r := Failure(err);
    case Success(dataset) =>
      r := Success(EpisodeLoader(dataset, EpisodicBatchSampler(SetDatasets.Len(dataset), m.nWay, m.nEpisode)));
  }

  /** Valid randomness for one episode: every selected class id names a pool
      and comes with a shuffle of that pool. */
  predicate ValidShuffles(ds: SetDataset, sel: seq<nat>, shuffles: seq<seq<nat>>) {
    && |shuffles| == |sel|
    && forall j :: 0 <= j < |sel| ==>
         sel[j] < |ds.pools| && IsPermutation(shuffles[j], |ds.pools[sel[j]]|)
  }

  /** One episode: the dataset is fetched once per selected class id, and
      slot `j` of the episode holds the batch of the `j`-th selected class,
      whatever order workers finish in. */
  function Episode(ds: SetDataset, sel: seq<nat>, shuffles: seq<seq<nat>>): (ep: seq<seq<Sample>>)
    requires Valid(ds) && ValidShuffles(ds, sel, shuffles)
    ensures |ep| == |sel|
    ensures forall j :: 0 <= j < |sel| ==> GetItem(ds, sel[j], shuffles[j]) == Success(ep[j])
    ensures forall j :: 0 <= j < |sel| ==>
      && |ep[j]| == Min(|ds.pools[sel[j]]|, ds.batchSize)
      && forall k :: 0 <= k < |ep[j]| ==> ep[j][k].classId == sel[j]
  {
    seq(|sel|, j requires 0 <= j < |sel| => GetItem(ds, sel[j], shuffles[j]).value)
  }

  /** Every class of an episode contributes exactly `batchSize` samples if
      and only if every selected pool has at least that many members;
      otherwise some slot is short. */
  lemma EpisodeIsRectangular(ds: SetDataset, sel: seq<nat>, shuffles: seq<seq<nat>>)
    requires Valid(ds) && ValidShuffles(ds, sel, shuffles)
    ensures (forall j :: 0 <= j < |sel| ==> |Episode(ds, sel, shuffles)[j]| == ds.batchSize) <==>
            (forall j :: 0 <= j < |sel| ==> |ds.pools[sel[j]]| >= ds.batchSize)
  {
    var ep := Episode(ds, sel, shuffles);
    if forall j :: 0 <= j < |sel| ==> |ep[j]| == ds.batchSize {
      forall j | 0 <= j < |sel|
        ensures |ds.pools[sel[j]]| >= ds.batchSize
      {
        assert |ep[j]| == Min(|ds.pools[sel[j]]|, ds.batchSize);
      }
    }
  }

  /** Collating an episode stacks its per-class batches, which needs every
      slot to hold the same number of samples. */
  predicate Rectangular(ep: seq<seq<Sample>>) {
    forall j, k :: 0 <= j < |ep| && 0 <= k < |ep| ==> |ep[j]| == |ep[k]|
  }

  /** The error collation raises on an episode whose slots differ in length. */
  datatype LoaderError = StackSizeMismatch(episode: nat)

  /** What one pass delivers: the episodes yielded, then the error that
      ended it early, if any. */
  datatype LoaderPass = LoaderPass(yielded: seq<seq<seq<Sample>>>, error: Option<LoaderError>)

  /** Index of the first episode at or after `e` that cannot be stacked, or
      `|eps|` when there is none. */
  function FirstRagged(eps: seq<seq<seq<Sample>>>, e: nat): (k: nat)
    requires e <= |eps|
    ensures e <= k <= |eps|
    ensures forall i :: e <= i < k ==> Rectangular(eps[i])
    ensures k < |eps| ==> !Rectangular(eps[k])
    decreases |eps| - e
  {
    if e == |eps| || !Rectangular(eps[e]) then e else FirstRagged(eps, e + 1)
  }

  /** One full pass of the loader: the sampler's selections, each turned
      into an episode and collated, stopping with an error at the first
      episode whose slots differ in length. */
  function Run(l: EpisodeLoader, perms: seq<seq<nat>>, shuffles: seq<seq<seq<nat>>>): (r: LoaderPass)
    requires Valid(l.dataset) && l.sampler.nClasses == |l.dataset.pools|
    requires ArePermutations(l.sampler, perms)
    requires |shuffles| == l.sampler.nEpisodes
    requires forall e :: 0 <= e < |shuffles| ==>
      ValidShuffles(l.dataset, Selections(l.sampler, perms)[e], shuffles[e])
    ensures |r.yielded| <= EpisodicSampler.Len(l.sampler)
    ensures forall e :: 0 <= e < |r.yielded| ==>
      && r.yielded[e] == Episode(l.dataset, Selections(l.sampler, perms)[e], shuffles[e])
      && Rectangular(r.yielded[e])
      && |r.yielded[e]| == SliceLength(l.sampler.nClasses, l.sampler.nWay)
    ensures r.error.None? <==> forall e :: 0 <= e < |shuffles| ==>
      Rectangular(Episode(l.dataset, Selections(l.sampler, perms)[e], shuffles[e]))
    ensures r.error.None? ==> |r.yielded| == EpisodicSampler.Len(l.sampler)
    ensures r.error.Some? ==>
      && |r.yielded| < EpisodicSampler.Len(l.sampler)
      && r.error.value == StackSizeMismatch(|r.yielded|)
      && !Rectangular(Episode(l.dataset, Selections(l.sampler, perms)[|r.yielded|], shuffles[|r.yielded|]))
  {
    var sels := Selections(l.sampler, perms);
    var eps := seq(|sels|, e requires 0 <= e < |sels| => Episode(l.dataset, sels[e], shuffles[e]));
    var k := FirstRagged(eps, 0);
    LoaderPass(eps[..k], if k < |eps| then Some(StackSizeMismatch(k)) else None)
  }

  /** Each sampler selection names existing pools only, so a shuffle can be
      supplied for every class it selects. */
  lemma SelectionsNamePools(l: EpisodeLoader, perms: seq<seq<nat>>, e: nat)
    requires l.sampler.nClasses == |l.dataset.pools|
    requires ArePermutations(l.sampler, perms) && e < l.sampler.nEpisodes
    ensures forall j :: 0 <= j < |Selections(l.sampler, perms)[e]| ==>
      Selections(l.sampler, perms)[e][j] < |l.dataset.pools|
  {
  }
}

=== FILE: set_datasets.dfy ===
/** `SetDataset`: one index pool per dense class id over the relabelled
    subset, and `__getitem__`, which returns the first batch of a shuffled
    pass over one pool. */
module SetDatasets {
  import opened Wrappers
  import opened Seqs
  import opened SortedUnique
  import opened Subsets

  /** The relabelled subset, the per-class batch size handed to every
      per-class loader, and the per-class pools of sample indices
      (`torch.utils.data.Subset(d, ind)` keeps only `ind`). */
  datatype SetDataset = SetDataset(d: Subset, batchSize: int, pools: seq<seq<nat>>)

  /** Errors the construction and the lookup raise. */
  datatype DatasetError =
    | BatchSizeNotPositive(batchSize: int)   // ValueError from the per-class loader
    | IndexOutOfRange(index: int)            // IndexError from `sub_dataloader[i]`

  /** `pool` is the ascending list of indices whose dense label is `c`. */
  predicate IsPool(targets: seq<nat>, c: nat, pool: seq<nat>) {
    && StrictlyIncreasing(pool)
    && (forall k :: 0 <= k < |pool| ==> pool[k] < |targets| && targets[pool[k]] == c)
    && (forall i :: 0 <= i < |targets| && targets[i] == c ==> i in pool)
  }

  /** What a constructed `SetDataset` always satisfies. */
  ghost predicate Valid(ds: SetDataset) {
    && StrictlyIncreasing(ds.d.classes)
    && |ds.d.samples| == |ds.d.targets|
    && (forall i :: 0 <= i < |ds.d.targets| ==>
          ds.d.targets[i] < |ds.d.classes| && ds.d.samples[i].classId == ds.d.targets[i])
    && |ds.pools| == |ds.d.classes|
    && (forall c :: 0 <= c < |ds.pools| ==> IsPool(ds.d.targets, c, ds.pools[c]) && |ds.pools[c]| > 0)
    && (|ds.pools| > 0 ==> ds.batchSize > 0)
  }

  /** One pool per class id `0 .. nClasses-1`, in class order. */
  method BuildPools(targets: seq<nat>, nClasses: nat) returns (pools: seq<seq<nat>>)
    ensures |pools| == nClasses
    ensures forall c :: 0 <= c < nClasses ==> IsPool(targets, c, pools[c])
  {
    pools := [];
    for cl := 0 to nClasses
      invariant |pools| == cl
      invariant forall c :: 0 <= c < cl ==> IsPool(targets, c, pools[c])
    {
      pools := pools + [Where(targets, cl)];
    }
  }

  /** Builds the subset from the descriptor and one pool per class; building
      a per-class loader with a non-positive batch size raises, which
      happens as soon as there is one class. */
  method NewSetDataset(batchSize: int, rows: seq<Row>) returns (r: Result<SetDataset, DatasetError>)
    ensures r.Failure? <==> batchSize <= 0 && |rows| > 0
    ensures r.Failure? ==> r.error == BatchSizeNotPositive(batchSize)
    ensures r.Success? ==>
      && Valid(r.value)
      && r.value.d == ConstructSubset(rows)
      && r.value.batchSize == batchSize
  {
    var d := ConstructSubset(rows);
    ClassCount(rows);
    if batchSize <= 0 && |d.classes| > 0 {
      return Failure(BatchSizeNotPositive(batchSize));
    }
    var pools := BuildPools(d.targets, |d.classes|);
    forall c | 0 <= c < |pools|
      ensures |pools[c]| > 0
    {
      EveryClassOccurs(rows, c);
      var i :| 0 <= i < |d.targets| && d.targets[i] == c;
      assert i in pools[c];
    }
    r := Success(SetDataset(d, batchSize, pools));
  }

  /** `len(dataset)`: the number of pools, one per class. */
  function Len(ds: SetDataset): (n: nat)
    ensures Valid(ds) ==> n == |ds.d.classes|
  {
    |ds.pools|
  }

  /** The sample indices of the first batch of a shuffled pass over `pool`:
      `perm` is the shuffling sampler's order and the batch sampler keeps its
      first `batchSize` entries, or fewer when the pool is smaller (no
      padding, the last short batch is kept). */
  function FirstBatch(pool: seq<nat>, perm: seq<nat>, batchSize: int): (idx: seq<nat>)
    requires IsPermutation(perm, |pool|) && batchSize > 0
    ensures |idx| == Min(|pool|, batchSize)
    ensures forall j :: 0 <= j < |idx| ==> idx[j] in pool
    ensures Distinct(pool) ==> Distinct(idx)
    ensures batchSize >= |pool| ==> forall k :: k in pool ==> k in idx
  {
    var idx := seq(Min(|pool|, batchSize), j requires 0 <= j < Min(|pool|, batchSize) => pool[perm[j]]);
    assert batchSize >= |pool| ==> forall k :: k in pool ==> k in idx by {
      if batchSize >= |pool| {
        forall k | k in pool
          ensures k in idx
        {
          var m :| 0 <= m < |pool| && pool[m] == k;
          assert m in perm;
          var j :| 0 <= j < |perm| && perm[j] == m;
          assert idx[j] == k;
        }
      }
    }
    idx
  }

  /** `__getitem__(i)`: the first batch of class `i`'s shuffled loader.
      Python list indexing applies to `i`; pools are never empty, so the
      loader always yields a batch. */
  function GetItem(ds: SetDataset, i: int, perm: seq<nat>): (r: Result<seq<Sample>, DatasetError>)
    requires Valid(ds)
    requires PyIndex(|ds.pools|, i).Some? ==>
      IsPermutation(perm, |ds.pools[PyIndex(|ds.pools|, i).value]|)
    ensures r.Failure? <==> !(-|ds.pools| <= i < |ds.pools|)
    ensures r.Failure? ==> r.error == IndexOutOfRange(i)
    ensures r.Success? ==>
      var c := PyIndex(|ds.pools|, i).value;
      && |r.value| == Min(|ds.pools[c]|, ds.batchSize)
      && (forall j :: 0 <= j < |r.value| ==> r.value[j].classId == c)
      && (forall j :: 0 <= j < |r.value| ==> r.value[j] in ds.d.samples)
  {
    match PyIndex(|ds.pools|, i)
    case None => Failure(IndexOutOfRange(i))
    case Some(c) =>
      var idx := FirstBatch(ds.pools[c], perm, ds.batchSize);
      Success(seq(|idx|, j requires 0 <= j < |idx| => ds.d.samples[idx[j]]))
  }

  /** A fetched batch consists of distinct samples of the pool: the indices
      behind it are distinct members of the pool, and when the pool has no
      more members than the batch size the batch is the whole pool. */
  lemma GetItemDrawsFromPool(ds: SetDataset, c: nat, perm: seq<nat>)
    requires Valid(ds) && c < |ds.pools|
    requires IsPermutation(perm, |ds.pools[c]|)
    ensures var idx := FirstBatch(ds.pools[c], perm, ds.batchSize);
      && Distinct(idx)
      && (forall j :: 0 <= j < |idx| ==> idx[j] in ds.pools[c])
      && GetItem(ds, c, perm) == Success(seq(|idx|, j requires 0 <= j < |idx| => ds.d.samples[idx[j]]))
      && (ds.batchSize >= |ds.pools[c]| ==> |idx| == |ds.pools[c]|)
  {
  }

  /** Pools partition the sample indices: each index lies in the pool of its
      own label and in no other. */
  lemma PoolsPartition(ds: SetDataset)
    requires Valid(ds)
    ensures forall i :: 0 <= i < |ds.d.targets| ==>
      ds.d.targets[i] < |ds.pools| && i in ds.pools[ds.d.targets[i]]
    ensures forall c, i :: 0 <= c < |ds.pools| && i in ds.pools[c] ==>
      i < |ds.d.targets| && ds.d.targets[i] == c
  {
  }

  /** Sum of the pool sizes. */
  function SumLengths(pools: seq<seq<nat>>): nat {
    if |pools| == 0 then 0 else SumLengths(pools[..|pools| - 1]) + |pools[|pools| - 1]|
  }

  /** Number of samples whose label is below `k`, class by class. */
  function CountBelow(targets: seq<nat>, k: nat): nat {
    if k == 0 then 0 else CountBelow(targets, k - 1) + Count<nat>(targets, k - 1)
  }

  lemma {:induction false} CountBelowSnoc(targets: seq<nat>, x: nat, k: nat)
    ensures CountBelow(targets + [x], k) == CountBelow(targets, k) + (if x < k then 1 else 0)
  {
    if k > 0 {
      CountBelowSnoc(targets, x, k - 1);
      assert (targets + [x])[..|targets|] == targets;
    }
  }

  lemma {:induction false} CountBelowAll(targets: seq<nat>, k: nat)
    requires forall i :: 0 <= i < |targets| ==> targets[i] < k
    ensures CountBelow(targets, k) == |targets|
  {
    if |targets| == 0 {
      CountBelowEmpty(k);
    } else {
      var init := targets[..|targets| - 1];
      CountBelowAll(init, k);
      CountBelowSnoc(init, targets[|targets| - 1], k);
      assert init + [targets[|targets| - 1]] == targets;
    }
  }

  lemma {:induction false} CountBelowEmpty(k: nat)
    ensures CountBelow([], k) == 0
  {
    if k > 0 {
      CountBelowEmpty(k - 1);
    }
  }

  /** A pool with the characterising properties is `np.where`'s answer. */
  lemma PoolIsWhere(targets: seq<nat>, c: nat, pool: seq<nat>)
    requires IsPool(targets, c, pool)
    ensures pool == Where<nat>(targets, c)
  {
    var w := Where<nat>(targets, c);
    forall y: int
      ensures y in pool <==> y in w
    {
      if y in pool {
        var k :| 0 <= k < |pool| && pool[k] == y;
      }
      if y in w {
        var k :| 0 <= k < |w| && w[k] == y;
      }
    }
    SortedEqual(pool, w);
  }

  lemma {:induction false} SumLengthsOfPools(targets: seq<nat>, pools: seq<seq<nat>>)
    requires forall c :: 0 <= c < |pools| ==> IsPool(targets, c, pools[c])
    ensures SumLengths(pools) == CountBelow(targets, |pools|)
  {
    if |pools| > 0 {
      var n := |pools| - 1;
      assert forall c :: 0 <= c < n ==> pools[..n][c] == pools[c];
      SumLengthsOfPools(targets, pools[..n]);
      PoolIsWhere(targets, n, pools[n]);
      WhereCount<nat>(targets, n);
      assert |pools[n]| == Count<nat>(targets, n);
      assert SumLengths(pools) == SumLengths(pools[..n]) + |pools[n]|;
      assert CountBelow(targets, n + 1) == CountBelow(targets, n) + Count<nat>(targets, n);
    }
  }

  /** Pools cover every sample exactly once: their sizes add up to the
      number of samples. */
  lemma PoolSizesSum(ds: SetDataset)
    requires Valid(ds)
    ensures SumLengths(ds.pools) == |ds.d.samples|
  {
    SumLengthsOfPools(ds.d.targets, ds.pools);
    CountBelowAll(ds.d.targets, |ds.pools|);
  }
}

=== FILE: sorted_unique.dfy ===
/** numpy's `np.unique` on a label column: the distinct values in ascending
    order. The insertion below is one way to compute it; `SortedEqual` shows
    that the result is the only strictly increasing sequence with those
    elements, so any sort-then-deduplicate implementation agrees with it. */
module SortedUnique {
  import opened Seqs

  /** Inserts `x` into a strictly increasing table unless it is present. */
  function Insert(u: seq<int>, x: int): (r: seq<int>)
    requires StrictlyIncreasing(u)
    ensures StrictlyIncreasing(r)
    ensures forall y :: y in r <==> y in u || y == x
  {
    if |u| == 0 then [x]
    else if x < u[0] then [x] + u
    else if x == u[0] then u
    else
      var rest := Insert(u[1..], x);
      assert forall k :: 0 <= k < |rest| ==> u[0] < rest[k] by {
        forall k | 0 <= k < |rest|
          ensures u[0] < rest[k]
        {
          assert rest[k] in u[1..] || rest[k] == x;
        }
      }
      [u[0]] + rest
  }

  /** The distinct values of `ts`, ascending. */
  function Unique(ts: seq<int>): (u: seq<int>)
    ensures StrictlyIncreasing(u)
    ensures forall y :: y in u <==> y in ts
  {
    if |ts| == 0 then []
    else
      assert ts == ts[..|ts| - 1] + [ts[|ts| - 1]];
      Insert(Unique(ts[..|ts| - 1]), ts[|ts| - 1])
  }

  /** Dropping the head of a strictly increasing sequence removes exactly
      that value. */
  lemma TailElements(a: seq<int>)
    requires StrictlyIncreasing(a) && |a| > 0
    ensures forall y :: y in a[1..] <==> y in a && y != a[0]
  {
  }

  /** The head of a nonempty strictly increasing sequence is its minimum. */
  lemma HeadIsMinimum(a: seq<int>, y: int)
    requires StrictlyIncreasing(a) && y in a
    ensures a[0] <= y
  {
  }

  /** Two strictly increasing sequences with the same elements are equal. */
  lemma {:induction false} SortedEqual(a: seq<int>, b: seq<int>)
    requires StrictlyIncreasing(a) && StrictlyIncreasing(b)
    requires forall y :: y in a <==> y in b
    ensures a == b
    decreases |a|
  {
    if |a| > 0 {
      assert a[0] in a;
    }
    if |b| > 0 {
      assert b[0] in b;
    }
    if |a| > 0 {
      HeadIsMinimum(a, b[0]);
      HeadIsMinimum(b, a[0]);
      TailElements(a);
      TailElements(b);
      SortedEqual(a[1..], b[1..]);
      assert a == [a[0]] + a[1..];
      assert b == [b[0]] + b[1..];
    }
  }

  /** `Unique(ts)` is the one strictly increasing sequence holding exactly
      the values of `ts`: an independent characterisation of `np.unique`. */
  lemma UniqueIsCanonical(ts: seq<int>, u: seq<int>)
    requires StrictlyIncreasing(u)
    requires forall y :: y in u <==> y in ts
    ensures u == Unique(ts)
  {
    SortedEqual(u, Unique(ts));
  }

  /** The class table depends only on which labels occur, not on their
      order or multiplicity in the column. */
  lemma UniqueDependsOnlyOnValues(ts: seq<int>, ts': seq<int>)
    requires forall y :: y in ts <==> y in ts'
    ensures Unique(ts) == Unique(ts')
  {
    SortedEqual(Unique(ts), Unique(ts'));
  }

  /** Applying `np.unique` to its own result changes nothing. */
  lemma UniqueIdempotent(ts: seq<int>)
    ensures Unique(Unique(ts)) == Unique(ts)
  {
    UniqueIsCanonical(Unique(ts), Unique(ts));
  }

  /** The table is empty exactly when the column is. */
  lemma UniqueEmpty(ts: seq<int>)
    ensures |Unique(ts)| == 0 <==> |ts| == 0
  {
    if |ts| > 0 {
      assert ts[0] in Unique(ts);
    }
  }

  /** Position of label `t` in the class table `u`; numpy's
      `np.where(u == t)[0]`, which for a strictly increasing table holds a
      single index. */
  function IndexOf(u: seq<int>, t: int): (k: nat)
    requires StrictlyIncreasing(u) && t in u
    ensures k < |u| && u[k] == t
    ensures forall j :: 0 <= j < |u| && u[j] == t ==> j == k
  {
    WhereInSorted(u, t);
    Where(u, t)[0]
  }

  /** Lookup in a sorted table is strictly monotone in the label. */
  lemma IndexOfMonotone(u: seq<int>, t1: int, t2: int)
    requires StrictlyIncreasing(u) && t1 in u && t2 in u
    ensures t1 < t2 <==> IndexOf(u, t1) < IndexOf(u, t2)
    ensures t1 == t2 <==> IndexOf(u, t1) == IndexOf(u, t2)
  {
  }
}

=== FILE: subsets.dfy ===
/** `construct_subset`: turns a split descriptor, the rows of a CSV with an
    image-path column and a raw-label column, into a relabelled sample list
    whose labels are dense ids into the sorted table of distinct raw labels. */
module Subsets {
  import opened Seqs
  import opened SortedUnique

  /** One descriptor row: `img_path` and `targets` columns. */
  datatype Row = Row(imgPath: string, target: int)

  /** One sample of the derived dataset: image path and dense label id. */
  datatype Sample = Sample(path: string, classId: nat)

  /** The derived dataset: `samples` (also exposed as `imgs`), `targets`
      (the dense ids) and `classes` (the raw-label table `u_targets`). */
  datatype Subset = Subset(samples: seq<Sample>, targets: seq<nat>, classes: seq<int>)

  /** The raw-label column of the descriptor. */
  function RawTargets(rows: seq<Row>): seq<int> {
    seq(|rows|, i requires 0 <= i < |rows| => rows[i].target)
  }

  /** Relabels the descriptor's rows with the ids of their raw labels in the
      sorted, duplicate-free table of labels. */
  function ConstructSubset(rows: seq<Row>): (d: Subset)
    ensures StrictlyIncreasing(d.classes)
    ensures forall t :: t in d.classes <==> t in RawTargets(rows)
    ensures |d.samples| == |rows| && |d.targets| == |rows|
    ensures forall i :: 0 <= i < |rows| ==>
      && d.targets[i] < |d.classes|
      && d.classes[d.targets[i]] == rows[i].target
      && d.samples[i] == Sample(rows[i].imgPath, d.targets[i])
  {
    var u := Unique(RawTargets(rows));
    var ids := seq(|rows|, i requires 0 <= i < |rows| =>
      assert RawTargets(rows)[i] == rows[i].target;
      IndexOf(u, rows[i].target));
    Subset(seq(|rows|, i requires 0 <= i < |rows| => Sample(rows[i].imgPath, ids[i])), ids, u)
  }

  /** Every class of the table is the label of some sample, so no class
      pool built from the subset is empty. */
  lemma EveryClassOccurs(rows: seq<Row>, c: nat)
    requires c < |ConstructSubset(rows).classes|
    ensures c in ConstructSubset(rows).targets
  {
    var d := ConstructSubset(rows);
    assert d.classes[c] in RawTargets(rows);
    var i :| 0 <= i < |rows| && RawTargets(rows)[i] == d.classes[c];
    assert d.classes[d.targets[i]] == d.classes[c];
    assert d.targets[i] == c;
  }

  /** The number of classes is the number of distinct raw labels, and a
      nonempty descriptor has at least one class. */
  lemma ClassCount(rows: seq<Row>)
    ensures |ConstructSubset(rows).classes| == 0 <==> |rows| == 0
    ensures |ConstructSubset(rows).classes| == |set i | 0 <= i < |rows| :: rows[i].target|
  {
    var d := ConstructSubset(rows);
    UniqueEmpty(RawTargets(rows));
    var labels := set i | 0 <= i < |rows| :: rows[i].target;
    assert labels == set k | 0 <= k < |d.classes| :: d.classes[k] by {
      forall t | t in labels
        ensures t in set k | 0 <= k < |d.classes| :: d.classes[k]
      {
        var i :| 0 <= i < |rows| && rows[i].target == t;
        assert d.classes[d.targets[i]] == t;
      }
      forall t | t in set k | 0 <= k < |d.classes| :: d.classes[k]
        ensures t in labels
      {
        assert t in RawTargets(rows);
        var i :| 0 <= i < |rows| && RawTargets(rows)[i] == t;
      }
    }
    DistinctSetSize(d.classes);
  }

  /** A strictly increasing sequence has as many elements as values. */
  lemma {:induction false} DistinctSetSize(u: seq<int>)
    requires StrictlyIncreasing(u)
    ensures |set k | 0 <= k < |u| :: u[k]| == |u|
  {
    if |u| > 0 {
      var v := u[..|u| - 1];
      DistinctSetSize(v);
      var sv := set k | 0 <= k < |v| :: v[k];
      var su := set k | 0 <= k < |u| :: u[k];
      assert su == sv + {u[|u| - 1]};
      assert u[|u| - 1] !in sv;
    }
  }

  /** Relabelling is monotone: two rows' ids compare as their raw labels do. */
  lemma RemapMonotone(rows: seq<Row>, i: nat, j: nat)
    requires i < |rows| && j < |rows|
    ensures rows[i].target < rows[j].target <==>
      ConstructSubset(rows).targets[i] < ConstructSubset(rows).targets[j]
    ensures rows[i].target == rows[j].target <==>
      ConstructSubset(rows).targets[i] == ConstructSubset(rows).targets[j]
  {
  }

  /** Permuting the descriptor's rows leaves the class table unchanged and
      permutes the ids in the same way: ids do not depend on row order. */
  lemma RemapIgnoresRowOrder(rows: seq<Row>, perm: seq<nat>)
    requires IsPermutation(perm, |rows|)
    ensures var rows' := seq(|rows|, k requires 0 <= k < |rows| => rows[perm[k]]);
      && ConstructSubset(rows').classes == ConstructSubset(rows).classes
      && forall k :: 0 <= k < |rows| ==>
           ConstructSubset(rows').targets[k] == ConstructSubset(rows).targets[perm[k]]
  {
    var rows' := seq(|rows|, k requires 0 <= k < |rows| => rows[perm[k]]);
    forall t
      ensures t in RawTargets(rows') <==> t in RawTargets(rows)
    {
      if t in RawTargets(rows') {
        var k :| 0 <= k < |rows'| && RawTargets(rows')[k] == t;
        assert RawTargets(rows)[perm[k]] == t;
      }
      if t in RawTargets(rows) {
        var j :| 0 <= j < |rows| && RawTargets(rows)[j] == t;
        assert j in perm;
        var k :| 0 <= k < |perm| && perm[k] == j;
        assert RawTargets(rows')[k] == t;
      }
    }
    UniqueDependsOnlyOnValues(RawTargets(rows'), RawTargets(rows));
  }
}

=== FILE: wrappers.dfy ===
/** An optional value and a value-or-error result, shared by the model,
    standing in for Python's `None` and raised exceptions. */
module Wrappers {

  /** A value that may be absent (Python's `None`). */
  datatype Option<+T> = None | Some(value: T)

  /** Either a value or the error the source would raise instead. */
  datatype Result<+R, +E> = Success(value: R) | Failure(error: E)
}
